=== FILE: README.md ===
# neurogenesis: note headers and the index rebuild

neurogenesis keeps a directory of Markdown notes. Each note starts with a
five-line header:

```
---
ID:<id>
TITLE:<title>
TAGS:<comma-separated tags>
---
```

A JSON index `.database.json` holds one `{id, title, tags}` record per note.
This project models the part of `neurogenesis.py` that is more than I/O
wiring:

- `createNode` lays out the header of a fresh note (`Header.Render`).
- `getNodeProperties` reads a note's first five lines and extracts the
  three fields (`Header.Parse`).
- `getNodes` parses every listed note, and the first unreadable note
  aborts the scan (`Scanner.Scan`).
- `refreshDatabase` deletes the index, recreates it and fills it from a
  new scan (`Store.Refresh`).

Python's string and file primitives are given explicit definitions:

- `str.strip()` uses the full `str.isspace` set (`Text.Strip`).
- `str.split(sep)` keeps empty pieces, so `"".split(",") == [""]`
  (`Text.Split`).
- Text-mode newline translation turns `\r\n` and a lone `\r` into `\n`
  (`TextIO.Translate`).
- `readline()` returns `""` at end of file (`TextIO.ReadLine`,
  `TextIO.ReadLines`).

A note's content is a `string`. The directory listing is a sequence of note
contents in the order the directory yields them. The index is a `Database`:
missing, present but empty, or written with a sequence of records.

Behaviour of the code worth knowing:

- A field is the text between the first and the second `:` of its line,
  not everything after the first `:`. A title `a:b` reads back as `a`.
- Only lines 1-3 are inspected. A file whose first four lines are
  `---`, `ID:…`, `TITLE:…` and `TAGS:…` parses even without its closing
  `---` line. A file fails exactly when one of lines 1-3 lacks a colon.
- `refreshDatabase` empties the index before it scans. A rebuild whose scan
  fails therefore leaves an existing but empty index file, not the prior
  index and not a missing file.
- `Path.touch()` defaults to `exist_ok=True`, so creating a note never fails
  because the file already exists.
- The title is written verbatim. A title spanning two lines pushes `TAGS:`
  down a line, and when the second half has no colon the note cannot be
  parsed, so every rebuild fails while it stays in the directory. When the
  second half does have a colon the note parses, but its tags are read from
  that half rather than from `TAGS:`: a title `a\nX:y` gives tags `["y"]`.

## Model

| member | source | states |
|---|---|---|
| Text.Strip | neurogenesis.py:41-43 | The stripped field has no whitespace (in the sense of `str.isspace`) at either end. |
| Text.StripIsMiddle | neurogenesis.py:41-43 | `strip()` removes exactly an all-whitespace prefix and an all-whitespace suffix; what remains is the middle of the input. |
| Text.StripFixpoint | neurogenesis.py:41-43 | Stripping leaves a string unchanged if and only if it has no surrounding whitespace. |
| Text.StripTrailingSpace | neurogenesis.py:41-43 | Whitespace appended to a value, such as the line's own newline, does not change what `strip()` returns. |
| Text.Split | neurogenesis.py:41-43 | `split(sep)` gives one piece more than there are separators; no piece contains the separator; joining the pieces with it restores the input. |
| Text.SplitJoin | neurogenesis.py:43 | Splitting a join of a non-empty list of separator-free pieces gives back exactly those pieces (split inverts join). The empty list is the exception: it joins to `""`, which splits to `[""]`. |
| Text.SplitNoSeparator | neurogenesis.py:41-43 | A string without the separator splits to the one-element list holding it. |
| Text.SplitFirst | neurogenesis.py:41-43 | The first piece is the text before the first separator, and the rest is the split of what follows it. |
| TextIO.TranslateLineEnds | neurogenesis.py:37 | Both `"\r\n"` and a lone `"\r"` (one not followed by `"\n"`) reach the reader as a single `"\n"`, and the text around them is translated independently. |
| TextIO.Translate | neurogenesis.py:37 | Opening a note in text mode leaves no carriage return; content without one is unchanged and nothing grows. |
| TextIO.TranslateAppend | neurogenesis.py:37 | Translation works left to right: a carriage-return-free prefix passes through and the rest is translated independently. |
| TextIO.ReadLine | neurogenesis.py:40 | `readline()` splits the stream: the line returned and the unread rest put back together give the stream. |
| TextIO.ReadLineShape | neurogenesis.py:40 | `readline()` returns a prefix with no inner newline. It ends in a newline exactly when the content has one, and a line without a newline consumes the rest of the file. |
| TextIO.ReadLines | neurogenesis.py:39-40 | `n` successive `readline()` calls give exactly `n` strings; `ReadLinesShape` and `ReadLinesOfLines` fix their content. |
| TextIO.ReadLinesShape | neurogenesis.py:39-40 | The five reads return consecutive prefixes of the file, each a single line; after a read that hits end of file, every later read is `""`. |
| TextIO.ReadLinesOfLines | neurogenesis.py:39-40 | Reading a file made of complete lines returns exactly those lines, then continues with what follows. |
| TextIO.ReadLinesAtEof | neurogenesis.py:39-40 | Every read past end of file returns `""`. |
| Header.Render | neurogenesis.py:26-30 | `createNode` writes `---`, `ID:id`, `TITLE:title`, `TAGS:` and `---` back to back, each followed by a newline. |
| Header.ReadHeader | neurogenesis.py:37-40 | Opening a note in text mode and reading five times gives exactly five strings, the reads of the newline-translated note. |
| Header.ReadHeaderShape | neurogenesis.py:37-40 | Each of the five reads is a single line with no carriage return, and together they are a prefix of the translated note. |
| Header.RenderReadsAsFiveLines | neurogenesis.py:26-30 | For a single-line id and title: the rendered header is exactly `---`, `ID:id`, `TITLE:title`, `TAGS:`, `---`, each newline-terminated, in that order and followed by end of file. |
| Header.ReadHeaderLines | neurogenesis.py:37-40 | For a single-line id, title and tag field: whatever follows a header laid out as `createNode` lays it out, the five reads return those header lines. |
| Header.Field | neurogenesis.py:41 | A field is present if and only if its line has a colon; a present field has no surrounding whitespace. |
| Header.FieldBetweenColons | neurogenesis.py:41-43 | The field is the stripped text between the first and second colon; anything from the second colon on is dropped. |
| Header.ParseHeader | neurogenesis.py:41-44 | Parsing succeeds if and only if lines 1, 2 and 3 each hold a colon. A failure names the first of them that does not. On success id and title are the fields of lines 1 and 2, and the tags joined with `,` give the field of line 3: one tag more than it has commas, none containing a comma. |
| Header.Parse | neurogenesis.py:35-44 | A failure names one of lines 1-3. A parsed record's id and title have no surrounding whitespace, and its tag list is never empty. |
| Header.ParseHeaderLines | neurogenesis.py:35-44 | For a single-line id, title and tag field: a header laid out as `createNode` lays it out parses, whatever the body, each field cut at its first colon and stripped. |
| Header.RenderThenParse | neurogenesis.py:26-44 | A freshly created note whose id and title are single lines always parses: id and title come back cut at their first colon and stripped, and tags are `[""]`, never `[]`. |
| Header.RoundTrip | neurogenesis.py:26-44 | If id and title hold no colon, no line break and no surrounding whitespace, parsing the rendered note gives back that id, that title and tags `[""]`. |
| Header.TaggedRoundTrip | neurogenesis.py:35-44 | For a single-line id and title with no colon and no surrounding whitespace, and a non-empty list of single-line tags with no colon or comma whose join has no surrounding whitespace: a note whose `TAGS:` line holds that comma-joined list reads back with that id, that title and exactly that list, whatever follows the header. |
| Header.ShortFileFails | neurogenesis.py:39-41 | A file with fewer than three line breaks fails to parse, because its missing lines read as `""`. |
| Header.ParseIgnoresOuterLines | neurogenesis.py:39-43 | Lines 0 and 4 and everything after line 4 are never inspected: files that agree on lines 1-3 parse alike. |
| Header.MissingClosingLine | neurogenesis.py:39-43 | For a single-line id, title and tag field: a header cut off before its closing `---` line parses exactly as the complete header does. |
| Header.TwoLineTitleHeader | neurogenesis.py:26-40 | A title written as two lines occupies lines 2 and 3 of the note, and `TAGS:` moves down to line 4. |
| Header.MultiLineTitleFails | neurogenesis.py:26-43 | A note created with a two-line title whose second half has no colon fails to parse, reporting line 3. |
| Header.TwoLineTitleColons | neurogenesis.py:26-40 | With a two-line title, the `ID:` and `TITLE:` lines still hold their colons, and line 3 is the title's second half. |
| Header.ParseHeaderTags | neurogenesis.py:41-44 | When lines 1 and 2 hold colons and line 3 has a field, parsing succeeds and the tags are that field split at its commas. |
| Header.KeyValueField | neurogenesis.py:41-43 | A line `key:value` whose key has no colon reads as the value up to its own first colon, stripped. |
| Header.MultiLineTitleTags | neurogenesis.py:26-43 | A note created with a two-line title whose second half is `key:value` parses, and its tags come from that value, not from the `TAGS:` line. |
| Header.TagsNeverEmpty | neurogenesis.py:43 | A parsed tag list is never empty: it has one entry more than the stripped `TAGS:` field has commas. |
| Scanner.Collect | neurogenesis.py:49 | A comprehension with a raising element succeeds if and only if every element succeeds. On success result i belongs to element i. On failure it reports the first failing position and its error. |
| Scanner.CollectInsert | neurogenesis.py:49 | Inserting a succeeding element at position k inserts its result at position k and leaves the other results, and the outcome, unchanged. |
| Scanner.CollectPermutation | neurogenesis.py:48-49 | Reordering the input only reorders the results: permuted inputs succeed together and give permuted results. |
| Scanner.Scan | neurogenesis.py:47-50 | The scan yields one record per listed note, in listing order, with record i the parse of note i. If any note fails, no list is produced, and the error is that of the first failing note. |
| Scanner.ScanOrderIndependent | neurogenesis.py:48-49 | Directory order affects only the order of the records: listings holding the same notes succeed together and give the same records. |
| Scanner.ScanInsert | neurogenesis.py:47-50 | Adding a readable note to the listing adds its record at the same position and nothing else. |
| Store.Refresh | neurogenesis.py:53-61 | A rebuild succeeds if and only if every note parses. It then leaves an index of exactly the scan's records, record i parsed from note i. Otherwise the index is left empty and the first failing note is reported. |
| Store.RefreshForgetsPrior | neurogenesis.py:55-61 | The outcome of a rebuild does not depend on the prior index: nothing is merged. |
| Store.RefreshIdempotent | neurogenesis.py:55-61 | Rebuilding twice over unchanged notes gives the same index as rebuilding once. |
| Store.EmptyDirectory | neurogenesis.py:47-61 | A directory without notes rebuilds to the empty index. |
| Store.SingleNoteDirectory | neurogenesis.py:47-61 | A directory holding a single readable note rebuilds to that note's record alone. |
| Store.OneNoteParses | neurogenesis.py:35-44 | The note with `ID:abc`, `TITLE:Hello`, `TAGS:x,y` reads as `{"id": "abc", "title": "Hello", "tags": ["x", "y"]}`. |
| Store.ShortNoteEmptiesIndex | neurogenesis.py:39-61 | One note too short to hold lines 1-3 makes the rebuild fail, and the index is then empty whatever it held before. |
| Store.NewNodeThenRefresh | neurogenesis.py:22-61 | For a single-line id and title: after creating a note and rebuilding, the rebuild succeeds exactly when it would have without the new note. The new note's record, with tags `[""]`, is then inserted among the other notes' records at its listing position. |
| Store.MultiLineTitleBreaksRefresh | neurogenesis.py:22-61 | Creating a note whose title spans two lines, the second without a colon, makes the following rebuild fail and leaves the index empty, whatever the other notes are. |

## Left out

- Configuration (`readConfig`, `createConfig`, neurogenesis.py:74-98): JSON-config file I/O on a global, outside the header and index logic.
- The command line (`main`, neurogenesis.py:101-125): argument parsing and `os.chdir`. When `--title` is omitted the CLI passes `None` and the note reads `TITLE:None`; the model takes the title as a plain string, possibly spanning several lines.
- Id generation (`uuid.uuid4()`, neurogenesis.py:23): the id is a parameter. Randomness and uniqueness are not modelled; a uuid holds no colon, line break or whitespace, so it meets the round-trip's preconditions.
- Filesystem effects: creating, touching, writing, unlinking and globbing files (neurogenesis.py:24-25, 29-30, 48) are not performed. A note is its content, the listing is a given sequence of contents, and the index file is the `Database` value. Overwriting a note whose file already exists is not modelled.
- The JSON encoding of the index (`json.dumps`, neurogenesis.py:61) and `printDatabaseJSON` (neurogenesis.py:67-71): the index is modelled as records, not bytes, and printing is output only.
- Timing and messages on standard output (neurogenesis.py:31, 54, 62-63).
- Byte decoding: note contents are modelled as already-decoded characters; UTF-8 decoding errors and the platform's newline translation on write (`\n` becoming `\r\n` on Windows) are not modelled.
- I/O failures (permission errors, a full disk, a failing write after the delete) are not modelled; the only failure a rebuild reports is a note that cannot be parsed.

=== FILE: header.dfy ===
/** The note header: the five-line block `createNode` writes at the top of
    every note, and the reading of lines 1-3 of it that `getNodeProperties`
    performs. */
module Header {
  import opened Wrappers
  import opened Text
  import opened TextIO

  /** A note's metadata as the index records it. */
  datatype Node = Node(id: string, title: string, tags: seq<string>)

  /** The `IndexError` raised by `split(':')[1]` on header line `line`
      (1, 2 or 3) because that line has no colon. */
  datatype ParseError = MissingColon(line: nat)

  const Delimiter: string := "---\n"

  /** The five header lines of a note whose `TAGS:` line holds `tagField`. */
  function HeaderLines(id: string, title: string, tagField: string): seq<string> {
    [Delimiter, "ID:" + id + "\n", "TITLE:" + title + "\n", "TAGS:" + tagField + "\n", Delimiter]
  }

  /** What `createNode` writes into a new note: the header lines with an
      empty tag field, and nothing else. */
  function Render(id: string, title: string): (r: string)
    ensures r == Delimiter + ("ID:" + id + "\n") + ("TITLE:" + title + "\n") + "TAGS:\n" + Delimiter
  {
    ConcatFive(Delimiter, "ID:" + id + "\n", "TITLE:" + title + "\n", "TAGS:" + "" + "\n", Delimiter);
    assert "TAGS:" + "" + "\n" == "TAGS:\n";
    Concat(HeaderLines(id, title, ""))
  }

  /** Contains no character that ends a line when the file is read back in
      text mode. */
  predicate SingleLine(s: string) {
    '\n' !in s && '\r' !in s
  }

  /** The five `readline()` calls on the note opened in text mode; a read
      past end of file yields `""`. */
  function ReadHeader(content: string): (h: seq<string>)
    ensures |h| == 5
  {
    ReadLines(Translate(content), 5)
  }

  /** Each of the five reads is a single line: no newline before its last
      character and, the note being read in text mode, no carriage return.
      Together they are a prefix of the translated note. */
  lemma ReadHeaderShape(content: string)
    ensures Concat(ReadHeader(content)) <= Translate(content)
    ensures forall i :: 0 <= i < 5 ==> NoInnerNewline(ReadHeader(content)[i])
    ensures forall i :: 0 <= i < 5 ==> '\r' !in ReadHeader(content)[i]
  {
    var t := Translate(content);
    var h := ReadHeader(content);
    ReadLinesShape(t, 5);
    assert '\r' !in Concat(h) by {
      assert Concat(h) == t[..|Concat(h)|];
    }
    ConcatAvoids(h, '\r');
  }

  /** `line.split(':')[1].strip()`: the text between the first and the
      second colon (or the end of the line), stripped; nothing when the line
      has no colon, where indexing `[1]` raises. */
  function Field(line: string): (r: Option<string>)
    ensures r.Some? <==> ':' in line
    ensures r.Some? ==> Trimmed(r.value)
  {
    var parts := Split(line, ':');
    if |parts| < 2 then None else Some(Strip(parts[1]))
  }

  /** The record built from header lines 1 (id), 2 (title) and 3 (tags,
      further split on commas). Lines 0 and 4 are never looked at. */
  function ParseHeader(h: seq<string>): (r: Result<Node, ParseError>)
    requires |h| == 5
    ensures r.Ok? <==> ':' in h[1] && ':' in h[2] && ':' in h[3]
    ensures r.Err? ==> 1 <= r.error.line <= 3 && ':' !in h[r.error.line]
                       && (r.error.line > 1 ==> ':' in h[1])
                       && (r.error.line > 2 ==> ':' in h[2])
    ensures r.Ok? ==> Field(h[1]) == Some(r.value.id) && Field(h[2]) == Some(r.value.title)
    ensures r.Ok? ==> Join(r.value.tags, ',') == Field(h[3]).value
                      && |r.value.tags| == Count(Field(h[3]).value, ',') + 1
                      && (forall i :: 0 <= i < |r.value.tags| ==> ',' !in r.value.tags[i])
  {
    match Field(h[1])
    case None => Err(MissingColon(1))
    case Some(id) =>
      match Field(h[2])
      case None => Err(MissingColon(2))
      case Some(title) =>
        match Field(h[3])
        case None => Err(MissingColon(3))
        case Some(tags) => Ok(Node(id, title, Split(tags, ',')))
  }

  /** `getNodeProperties`: read the header of a note and build its record. */
  function Parse(content: string): (r: Result<Node, ParseError>)
    ensures r.Err? ==> 1 <= r.error.line <= 3
    ensures r.Ok? ==> Trimmed(r.value.id) && Trimmed(r.value.title) && |r.value.tags| >= 1
  {
    ParseHeader(ReadHeader(content))
  }

  /** The field is exactly the text between the first and the second colon,
      stripped: anything from a second colon on is dropped. */
  lemma FieldBetweenColons(key: string, value: string, rest: string)
    requires ':' !in key && ':' !in value
    requires rest == [] || rest[0] == ':'
    ensures Field(key + ":" + value + rest) == Some(Strip(value))
  {
    var line := key + ":" + value + rest;
    assert line == key + [':'] + (value + rest);
    SplitFirst(key, ':', value + rest);
    SplitHead(value, rest, ':');
  }

  /** A header line `KEY:value` as `createNode` writes it reads back as the
      part of the value before its first colon, stripped. */
  lemma RenderedField(head: string, value: string)
    requires |head| > 0 && head[|head| - 1] == ':' && ':' !in head[..|head| - 1]
    requires '\n' !in value
    ensures Field(head + value + "\n") == Some(Strip(Split(value, ':')[0]))
  {
    var key := head[..|head| - 1];
    assert head + value + "\n" == key + [':'] + (value + "\n");
    SplitFirst(key, ':', value + "\n");
    SplitHeadAppend(value, "\n", ':');
    if ':' !in value {
      SplitNoSeparator(value, ':');
      StripTrailingSpace(value, "\n");
    }
  }

  lemma IdField(id: string)
    requires '\n' !in id
    ensures Field("ID:" + id + "\n") == Some(Strip(Split(id, ':')[0]))
  {
    RenderedField("ID:", id);
  }

  lemma TitleField(title: string)
    requires '\n' !in title
    ensures Field("TITLE:" + title + "\n") == Some(Strip(Split(title, ':')[0]))
  {
    RenderedField("TITLE:", title);
  }

  lemma TagsField(tagField: string)
    requires '\n' !in tagField
    ensures Field("TAGS:" + tagField + "\n") == Some(Strip(Split(tagField, ':')[0]))
  {
    RenderedField("TAGS:", tagField);
  }

  lemma HeaderLinesAreLines(id: string, title: string, tagField: string)
    requires SingleLine(id) && SingleLine(title) && SingleLine(tagField)
    ensures forall i :: 0 <= i < 5 ==> IsLine(HeaderLines(id, title, tagField)[i])
    ensures '\r' !in Concat(HeaderLines(id, title, tagField))
  {
    var ls := HeaderLines(id, title, tagField);
    TerminatedIsLine("---");
    TerminatedIsLine("ID:" + id);
    TerminatedIsLine("TITLE:" + title);
    TerminatedIsLine("TAGS:" + tagField);
    assert Concat(ls[4..]) == ls[4] by {
      assert ls[4..][1..] == [];
    }
    assert Concat(ls[3..]) == ls[3] + Concat(ls[4..]) by {
      assert ls[3..][1..] == ls[4..];
    }
    assert Concat(ls[2..]) == ls[2] + Concat(ls[3..]) by {
      assert ls[2..][1..] == ls[3..];
    }
    assert Concat(ls[1..]) == ls[1] + Concat(ls[2..]) by {
      assert ls[1..][1..] == ls[2..];
    }
    assert Concat(ls) == ls[0] + Concat(ls[1..]);
  }

  /** The rendered header is exactly five lines, `---`, `ID:id`,
      `TITLE:title`, `TAGS:` and `---`, each newline-terminated, followed by
      end of file. */
  lemma RenderReadsAsFiveLines(id: string, title: string)
    requires SingleLine(id) && SingleLine(title)
    ensures ReadLines(Translate(Render(id, title)), 6)
         == ["---\n", "ID:" + id + "\n", "TITLE:" + title + "\n", "TAGS:\n", "---\n", ""]
  {
    var ls := HeaderLines(id, title, "");
    HeaderLinesAreLines(id, title, "");
    ReadLinesOfLines(ls, [], 1);
    assert Concat(ls) + [] == Render(id, title);
    ReadLinesAtEof(1);
    assert ls[3] == "TAGS:\n";
  }

  /** Whatever follows the header, the five reads return the header lines. */
  lemma ReadHeaderLines(id: string, title: string, tagField: string, body: string)
    requires SingleLine(id) && SingleLine(title) && SingleLine(tagField)
    ensures ReadHeader(Concat(HeaderLines(id, title, tagField)) + body)
         == HeaderLines(id, title, tagField)
  {
    var ls := HeaderLines(id, title, tagField);
    HeaderLinesAreLines(id, title, tagField);
    TranslateAppend(Concat(ls), body);
    ReadLinesOfLines(ls, Translate(body), 0);
    assert ls + [] == ls;
  }

  /** Any note whose header lines are laid out as `createNode` lays them
      out parses, each field cut at its first colon and stripped, whatever
      the body of the note. */
  lemma ParseHeaderLines(id: string, title: string, tagField: string, body: string)
    requires SingleLine(id) && SingleLine(title) && SingleLine(tagField)
    ensures Parse(Concat(HeaderLines(id, title, tagField)) + body)
         == Ok(Node(Strip(Split(id, ':')[0]), Strip(Split(title, ':')[0]),
                    Split(Strip(Split(tagField, ':')[0]), ',')))
  {
    var ls := HeaderLines(id, title, tagField);
    ReadHeaderLines(id, title, tagField, body);
    assert ls[1] == "ID:" + id + "\n";
    assert ls[2] == "TITLE:" + title + "\n";
    assert ls[3] == "TAGS:" + tagField + "\n";
    IdField(id);
    TitleField(title);
    TagsField(tagField);
  }

  /** Parsing a freshly rendered note always succeeds: id and title come
      back cut at their first colon and stripped, and the empty `TAGS:` line
      yields the one-element list `[""]`, never `[]`. */
  lemma RenderThenParse(id: string, title: string)
    requires SingleLine(id) && SingleLine(title)
    ensures Parse(Render(id, title))
         == Ok(Node(Strip(Split(id, ':')[0]), Strip(Split(title, ':')[0]), [""]))
  {
    ParseHeaderLines(id, title, "", []);
    assert Concat(HeaderLines(id, title, "")) + [] == Render(id, title);
    assert Split("", ':') == [""];
    assert Strip("") == "";
    assert Split("", ',') == [""];
  }

  /** Round trip: an id and a title without colons, line breaks or
      surrounding whitespace are read back unchanged, with empty tags. */
  lemma RoundTrip(id: string, title: string)
    requires SingleLine(id) && SingleLine(title)
    requires ':' !in id && ':' !in title
    requires Trimmed(id) && Trimmed(title)
    ensures Parse(Render(id, title)) == Ok(Node(id, title, [""]))
  {
    RenderThenParse(id, title);
    SplitNoSeparator(id, ':');
    SplitNoSeparator(title, ':');
    StripFixpoint(id);
    StripFixpoint(title);
  }

  /** A note whose `TAGS:` line was edited to a comma-separated list reads
      back with exactly that list, provided no field holds a colon or a line
      break and none has whitespace at its ends. */
  lemma TaggedRoundTrip(id: string, title: string, tags: seq<string>, body: string)
    requires SingleLine(id) && SingleLine(title)
    requires ':' !in id && ':' !in title
    requires Trimmed(id) && Trimmed(title)
    requires |tags| > 0
    requires forall i :: 0 <= i < |tags| ==> SingleLine(tags[i]) && ':' !in tags[i] && ',' !in tags[i]
    requires Trimmed(Join(tags, ','))
    ensures Parse(Concat(HeaderLines(id, title, Join(tags, ','))) + body) == Ok(Node(id, title, tags))
  {
    TagFieldReadsBack(tags);
    ParseFieldLines(id, title, Join(tags, ','), tags, body);
  }

  lemma ParseFieldLines(id: string, title: string, field: string, tags: seq<string>, body: string)
    requires SingleLine(id) && SingleLine(title) && SingleLine(field)
    requires ':' !in id && ':' !in title && ':' !in field
    requires Trimmed(id) && Trimmed(title) && Trimmed(field)
    requires Split(field, ',') == tags
    ensures Parse(Concat(HeaderLines(id, title, field)) + body) == Ok(Node(id, title, tags))
  {
    ParseHeaderLines(id, title, field, body);
    SplitNoSeparator(id, ':');
    StripFixpoint(id);
    SplitNoSeparator(title, ':');
    StripFixpoint(title);
    SplitNoSeparator(field, ':');
    StripFixpoint(field);
  }

  lemma TagFieldReadsBack(tags: seq<string>)
    requires |tags| > 0
    requires forall i :: 0 <= i < |tags| ==> SingleLine(tags[i]) && ':' !in tags[i] && ',' !in tags[i]
    requires Trimmed(Join(tags, ','))
    ensures SingleLine(Join(tags, ',')) && ':' !in Join(tags, ',')
    ensures Split(Join(tags, ','), ',') == tags
  {
    var field := Join(tags, ',');
    JoinAvoids(tags, ',', '\n');
    JoinAvoids(tags, ',', '\r');
    JoinAvoids(tags, ',', ':');
    SplitJoin(tags, ',');
  }

  /** A file that ends before its fourth line cannot be parsed: the missing
      lines read as `""`, which has no colon. */
  lemma ShortFileFails(content: string)
    requires Count(Translate(content), '\n') < 3
    ensures Parse(content).Err?
  {
    var s := Translate(content);
    var h := ReadHeader(content);
    ReadLinesShape(s, 5);
    if forall k :: 0 <= k < 3 ==> EndsInNewline(h[k]) {
      CountCompleteLines(h, 3);
      CountPrefix(Concat(h), s, '\n');
      assert false;
    }
    assert h[3] == [];
  }

  /** Only lines 1-3 matter: files agreeing there parse alike, whatever
      their delimiter lines or the rest of their content. */
  lemma ParseIgnoresOuterLines(c1: string, c2: string)
    requires ReadHeader(c1)[1..4] == ReadHeader(c2)[1..4]
    ensures Parse(c1) == Parse(c2)
  {
    assert ReadHeader(c1)[1] == ReadHeader(c1)[1..4][0];
    assert ReadHeader(c1)[2] == ReadHeader(c1)[1..4][1];
    assert ReadHeader(c1)[3] == ReadHeader(c1)[1..4][2];
    assert ReadHeader(c2)[1] == ReadHeader(c2)[1..4][0];
    assert ReadHeader(c2)[2] == ReadHeader(c2)[1..4][1];
    assert ReadHeader(c2)[3] == ReadHeader(c2)[1..4][2];
  }

  /** A note cut off before its closing `---` line parses exactly as the
      full header does: line 4 is read but never inspected. */
  lemma MissingClosingLine(id: string, title: string, tagField: string)
    requires SingleLine(id) && SingleLine(title) && SingleLine(tagField)
    ensures Parse(Concat(HeaderLines(id, title, tagField)[..4]))
         == Parse(Concat(HeaderLines(id, title, tagField)))
  {
    var ls := HeaderLines(id, title, tagField);
    var four := ls[..4];
    HeaderLinesAreLines(id, title, tagField);
    assert ls == four + [Delimiter];
    ConcatAppend(four, [Delimiter]);
    assert '\r' !in Concat(four);
    ReadLinesOfLines(four, [], 1);
    assert Concat(four) + [] == Concat(four);
    ReadLinesAtEof(1);
    ReadHeaderLines(id, title, tagField, []);
    assert Concat(ls) + [] == Concat(ls);
    assert ReadHeader(Concat(four))[1..4] == ls[1..4];
    ParseIgnoresOuterLines(Concat(four), Concat(ls));
  }

  /** The five reads of a note created with the two-line title
      `a + "\n" + b`: the title's halves take lines 2 and 3. */
  lemma TwoLineTitleHeader(id: string, a: string, b: string)
    requires SingleLine(id) && SingleLine(a) && SingleLine(b)
    ensures ReadHeader(Render(id, a + "\n" + b))
         == [Delimiter, "ID:" + id + "\n", "TITLE:" + a + "\n", b + "\n", "TAGS:\n"]
  {
    var ls := [Delimiter, "ID:" + id + "\n", "TITLE:" + a + "\n", b + "\n", "TAGS:\n"];
    var content := Render(id, a + "\n" + b);
    assert content == Concat(ls) + Delimiter by {
      assert "TITLE:" + (a + "\n" + b) + "\n" == ("TITLE:" + a + "\n") + (b + "\n");
      ConcatFive(ls[0], ls[1], ls[2], ls[3], ls[4]);
    }
    assert Translate(content) == content by {
      assert '\r' !in content;
    }
    TerminatedIsLine("---");
    TerminatedIsLine("ID:" + id);
    TerminatedIsLine("TITLE:" + a);
    TerminatedIsLine(b);
    TerminatedIsLine("TAGS:");
    ReadLinesOfLines(ls, Delimiter, 0);
    assert ls + [] == ls;
  }

  /** `createNode` writes the title verbatim: a title spanning two lines
      pushes the `TAGS:` line down to line 4, so line 3 is the title's second
      half and, lacking a colon, makes the note unreadable. */
  lemma MultiLineTitleFails(id: string, a: string, b: string)
    requires SingleLine(id) && SingleLine(a) && SingleLine(b)
    requires ':' !in b
    ensures Parse(Render(id, a + "\n" + b)) == Err(MissingColon(3))
  {
    var h := ReadHeader(Render(id, a + "\n" + b));
    TwoLineTitleHeader(id, a, b);
    assert ':' in h[1] && ':' in h[2] && ':' !in h[3] by {
      assert h[1] == "ID:" + id + "\n";
      assert h[2] == "TITLE:" + a + "\n";
    }
  }

  /** When lines 1 and 2 have fields, the tags are the field of line 3
      split at its commas. */
  lemma ParseHeaderTags(h: seq<string>, f: string)
    requires |h| == 5 && ':' in h[1] && ':' in h[2] && Field(h[3]) == Some(f)
    ensures ParseHeader(h).Ok? && ParseHeader(h).value.tags == Split(f, ',')
  {
  }

  /** A line `key:value` with a colon-free key reads as the value up to
      its own first colon, stripped. */
  lemma KeyValueField(key: string, value: string)
    requires ':' !in key && '\n' !in value
    ensures Field(key + ":" + value + "\n") == Some(Strip(Split(value, ':')[0]))
  {
    RenderedField(key + ":", value);
  }

  /** With a two-line title, lines 1 and 2 still hold the `ID:` and
      `TITLE:` colons, and line 3 is the title's second half. */
  lemma TwoLineTitleColons(id: string, a: string, b: string)
    requires SingleLine(id) && SingleLine(a) && SingleLine(b)
    ensures ':' in ReadHeader(Render(id, a + "\n" + b))[1]
    ensures ':' in ReadHeader(Render(id, a + "\n" + b))[2]
    ensures ReadHeader(Render(id, a + "\n" + b))[3] == b + "\n"
  {
    var h := ReadHeader(Render(id, a + "\n" + b));
    TwoLineTitleHeader(id, a, b);
    assert h[1][2] == ':' by {
      assert h[1] == "ID:" + id + "\n";
    }
    assert h[2][5] == ':' by {
      assert h[2] == "TITLE:" + a + "\n";
    }
  }

  /** When the second half of a two-line title has a colon, the note still
      parses, but its tags are read from that half: the `TAGS:` line has
      moved to line 4, which is never inspected. */
  lemma MultiLineTitleTags(id: string, a: string, k: string, v: string)
    requires SingleLine(id) && SingleLine(a) && SingleLine(k) && SingleLine(v)
    requires ':' !in k
    ensures Parse(Render(id, a + "\n" + (k + ":" + v))).Ok?
    ensures Parse(Render(id, a + "\n" + (k + ":" + v))).value.tags
         == Split(Strip(Split(v, ':')[0]), ',')
  {
    var b := k + ":" + v;
    var h := ReadHeader(Render(id, a + "\n" + b));
    TwoLineTitleColons(id, a, b);
    KeyValueField(k, v);
    ParseHeaderTags(h, Strip(Split(v, ':')[0]));
  }

  /** The tag list is never empty: one entry more than there are commas in
      the stripped `TAGS:` field, none of them containing a comma. */
  lemma TagsNeverEmpty(content: string)
    requires Parse(content).Ok?
    ensures var f := Field(ReadHeader(content)[3]);
            f.Some? && |Parse(content).value.tags| == Count(f.value, ',') + 1 >= 1
  {
  }
}

=== FILE: scanner.dfy ===
/** `getNodes`: the header of every listed note, in listing order, with the
    first unreadable note aborting the whole scan. */
module Scanner {
  import opened Wrappers
  import opened Header

  /** The comprehension stopped at position `index`, where the element
      raised `cause`. */
  datatype Abort<+E> = Abort(index: nat, cause: E)

  /** The list comprehension `[f(x) for x in xs]` when `f` may raise: the
      results in order, or the first failure, which ends the comprehension
      and discards everything computed so far. */
  function Collect<A, B, E>(f: A -> Result<B, E>, xs: seq<A>): (r: Result<seq<B>, Abort<E>>)
    ensures r.Ok? <==> forall i :: 0 <= i < |xs| ==> f(xs[i]).Ok?
    ensures r.Ok? ==> |r.value| == |xs|
                      && forall i :: 0 <= i < |xs| ==> f(xs[i]) == Ok(r.value[i])
    ensures r.Err? ==> r.error.index < |xs|
                       && f(xs[r.error.index]) == Err(r.error.cause)
                       && forall i :: 0 <= i < r.error.index ==> f(xs[i]).Ok?
  {
    if |xs| == 0 then Ok([])
    else
      match f(xs[0])
      case Err(e) => Err(Abort(0, e))
      case Ok(y) =>
        match Collect(f, xs[1..])
        case Err(Abort(k, e)) => Err(Abort(k + 1, e))
        case Ok(ys) => Ok([y] + ys)
  }

  /** The comprehension works element by element: over a concatenation it
      yields the concatenation of the results. */
  lemma CollectAppend<A, B, E>(f: A -> Result<B, E>, a: seq<A>, b: seq<A>)
    requires Collect(f, a).Ok? && Collect(f, b).Ok?
    ensures Collect(f, a + b) == Ok(Collect(f, a).value + Collect(f, b).value)
  {
    var expected := Collect(f, a).value + Collect(f, b).value;
    forall i | 0 <= i < |a + b|
      ensures f((a + b)[i]) == Ok(expected[i])
    {
      if i < |a| {
        assert (a + b)[i] == a[i];
      } else {
        assert (a + b)[i] == b[i - |a|];
      }
    }
    assert Collect(f, a + b).value == expected;
  }

  /** Inserting an element that succeeds at position `k` inserts its
      result at position `k` and changes nothing else. */
  lemma {:induction false} CollectInsert<A, B, E>(f: A -> Result<B, E>, xs: seq<A>, k: nat, x: A, v: B)
    requires k <= |xs| && f(x) == Ok(v)
    ensures Collect(f, xs[..k] + [x] + xs[k..]).Ok? <==> Collect(f, xs).Ok?
    ensures Collect(f, xs).Ok? ==>
              Collect(f, xs[..k] + [x] + xs[k..])
              == Ok(Collect(f, xs).value[..k] + [v] + Collect(f, xs).value[k..])
    decreases k
  {
    var ys := xs[..k] + [x] + xs[k..];
    if k == 0 {
      assert ys == [x] + xs;
      assert ys[0] == x && ys[1..] == xs;
      if Collect(f, xs).Ok? {
        var zs := Collect(f, xs).value;
        assert Collect(f, ys) == Ok([v] + zs);
        assert zs[..0] + [v] + zs[0..] == [v] + zs;
      }
    } else {
      assert ys[0] == xs[0];
      assert ys[1..] == xs[1..][..k - 1] + [x] + xs[1..][k - 1..];
      CollectInsert(f, xs[1..], k - 1, x, v);
      if Collect(f, xs).Ok? {
        var zs := Collect(f, xs).value;
        var rest := Collect(f, xs[1..]).value;
        assert f(xs[0]) == Ok(zs[0]);
        assert zs == [zs[0]] + rest;
        assert Collect(f, ys[1..]) == Ok(rest[..k - 1] + [v] + rest[k - 1..]);
        assert Collect(f, ys) == Ok([zs[0]] + (rest[..k - 1] + [v] + rest[k - 1..]));
        assert zs[..k] == [zs[0]] + rest[..k - 1];
        assert zs[k..] == rest[k - 1..];
        assert [zs[0]] + (rest[..k - 1] + [v] + rest[k - 1..]) == zs[..k] + [v] + zs[k..];
      }
    }
  }

  /** Taking the same element out of two permutations of each other leaves
      permutations of each other. */
  lemma RemoveMatching<A>(a: seq<A>, b: seq<A>, k: nat)
    requires multiset(a) == multiset(b)
    requires |a| > 0 && k < |b| && b[k] == a[0]
    ensures multiset(a[1..]) == multiset(b[..k] + b[k + 1..])
  {
    assert a == [a[0]] + a[1..];
    assert b == b[..k] + [b[k]] + b[k + 1..];
    assert multiset(a) == multiset{a[0]} + multiset(a[1..]);
    assert multiset(b) == multiset(b[..k]) + multiset{b[k]} + multiset(b[k + 1..]);
    assert multiset(b[..k] + b[k + 1..]) == multiset(b[..k]) + multiset(b[k + 1..]);
    assert multiset(a[1..]) == multiset(a) - multiset{a[0]};
  }

  /** Reordering the input only reorders the output: permuted inputs
      succeed or fail together, and on success give permuted results. */
  lemma {:induction false} CollectPermutation<A, B, E>(f: A -> Result<B, E>, a: seq<A>, b: seq<A>)
    requires multiset(a) == multiset(b)
    ensures Collect(f, a).Ok? <==> Collect(f, b).Ok?
    ensures Collect(f, a).Ok? ==> multiset(Collect(f, a).value) == multiset(Collect(f, b).value)
    decreases |a|
  {
    forall i | 0 <= i < |a| && Collect(f, b).Ok?
      ensures f(a[i]).Ok?
    {
      assert a[i] in multiset(b);
    }
    forall i | 0 <= i < |b| && Collect(f, a).Ok?
      ensures f(b[i]).Ok?
    {
      assert b[i] in multiset(a);
    }
    if Collect(f, a).Ok? && |a| > 0 {
      assert a[0] in multiset(b);
      var k :| 0 <= k < |b| && b[k] == a[0];
      var rest := b[..k] + b[k + 1..];
      assert b == b[..k] + ([b[k]] + b[k + 1..]);
      RemoveMatching(a, b, k);
      CollectPermutation(f, a[1..], rest);
      CollectAppend(f, [b[k]], b[k + 1..]);
      CollectAppend(f, b[..k], [b[k]] + b[k + 1..]);
      CollectAppend(f, b[..k], b[k + 1..]);
      var y := Collect(f, a).value[0];
      assert Collect(f, [b[k]]).value == [y];
      assert Collect(f, a).value == [y] + Collect(f, a[1..]).value;
    }
  }

  /** `getNodes`: one record per listed note, in listing order, or the
      position and error of the first note whose header cannot be read.
      The listing is given as the notes' contents, in whatever order the
      directory yields them. */
  function Scan(listing: seq<string>): (r: Result<seq<Node>, Abort<ParseError>>)
    ensures r.Ok? <==> forall i :: 0 <= i < |listing| ==> Parse(listing[i]).Ok?
    ensures r.Ok? ==> |r.value| == |listing|
                      && forall i :: 0 <= i < |listing| ==> Parse(listing[i]) == Ok(r.value[i])
    ensures r.Err? ==> r.error.index < |listing|
                       && Parse(listing[r.error.index]) == Err(r.error.cause)
                       && forall i :: 0 <= i < r.error.index ==> Parse(listing[i]).Ok?
  {
    Collect(Parse, listing)
  }

  /** Directory order does not matter beyond the order of the records:
      listings holding the same notes scan to the same records. */
  lemma ScanOrderIndependent(a: seq<string>, b: seq<string>)
    requires multiset(a) == multiset(b)
    ensures Scan(a).Ok? <==> Scan(b).Ok?
    ensures Scan(a).Ok? ==> multiset(Scan(a).value) == multiset(Scan(b).value)
  {
    CollectPermutation(Parse, a, b);
  }

  /** A note added at position `k` of the listing adds its record at
      position `k` of the scan and leaves the other records as they were. */
  lemma ScanInsert(listing: seq<string>, k: nat, note: string, node: Node)
    requires k <= |listing| && Parse(note) == Ok(node)
    ensures Scan(listing[..k] + [note] + listing[k..]).Ok? <==> Scan(listing).Ok?
    ensures Scan(listing).Ok? ==>
              Scan(listing[..k] + [note] + listing[k..])
              == Ok(Scan(listing).value[..k] + [node] + Scan(listing).value[k..])
  {
    CollectInsert(Parse, listing, k, note, node);
  }
}

=== FILE: store.dfy ===
/** `refreshDatabase`: the index file `.database.json` is deleted, created
    afresh and written from a new scan of the notes; it is never merged with
    what it held before. */
module Store {
  import opened Wrappers
  import opened Text
  import opened TextIO
  import opened Header
  import opened Scanner

  /** The index file in the working directory: missing, present but empty,
      or holding the records of a completed scan. */
  datatype Database = Missing | Blank | Written(nodes: seq<Node>)

  /** The index after a rebuild and, if the scan raised, its error. */
  datatype Refreshed = Refreshed(db: Database, failure: Option<Abort<ParseError>>)

  /** `Path.touch()`: creates an empty file and leaves an existing one as
      it is. */
  function Touch(db: Database): Database {
    if db.Missing? then Blank else db
  }

  /** `Path.unlink()`, which raises unless the file exists. */
  function Unlink(db: Database): Database
    requires !db.Missing?
  {
    Missing
  }

  /** `refreshDatabase` on the index `prior` and the notes `listing`, given
      as their contents in directory order. The index is emptied before the
      scan runs; a scan that raises leaves it empty, one that succeeds
      leaves exactly its records. */
  function Refresh(prior: Database, listing: seq<string>): (r: Refreshed)
    ensures r.failure.None? <==> forall i :: 0 <= i < |listing| ==> Parse(listing[i]).Ok?
    ensures r.failure.None? ==> r.db.Written? && |r.db.nodes| == |listing|
                                && forall i :: 0 <= i < |listing| ==> Parse(listing[i]) == Ok(r.db.nodes[i])
    ensures r.failure.Some? ==> r.db == Blank
                                && r.failure.value.index < |listing|
                                && Parse(listing[r.failure.value.index]) == Err(r.failure.value.cause)
                                && forall i :: 0 <= i < r.failure.value.index ==> Parse(listing[i]).Ok?
  {
    var cleared := if prior.Missing? then Touch(prior) else Touch(Unlink(prior));
    match Scan(listing)
    case Ok(nodes) => Refreshed(Written(nodes), None)
    case Err(e) => Refreshed(cleared, Some(e))
  }

  /** Nothing of the old index survives: the outcome of a rebuild depends
      on the notes alone. */
  lemma RefreshForgetsPrior(p: Database, q: Database, listing: seq<string>)
    ensures Refresh(p, listing) == Refresh(q, listing)
  {
  }

  /** Rebuilding again over unchanged notes changes nothing. */
  lemma RefreshIdempotent(prior: Database, listing: seq<string>)
    ensures Refresh(Refresh(prior, listing).db, listing) == Refresh(prior, listing)
  {
    RefreshForgetsPrior(Refresh(prior, listing).db, prior, listing);
  }

  /** An empty notes directory rebuilds to the empty index `[]`. */
  lemma EmptyDirectory(prior: Database)
    ensures Refresh(prior, []) == Refreshed(Written([]), None)
  {
  }

  /** The sample note's tag field: the list `["x", "y"]` joined with `,`. */
  lemma SampleTagField()
    ensures Join(["x", "y"], ',') == "x,y"
  {
  }

  /** The note whose header carries `ID:abc`, `TITLE:Hello` and
      `TAGS:x,y` (see `SampleTagField`) reads as the record
      `{"id": "abc", "title": "Hello", "tags": ["x", "y"]}`. */
  lemma OneNoteParses()
    ensures Parse(Concat(HeaderLines("abc", "Hello", Join(["x", "y"], ',')))) == Ok(Node("abc", "Hello", ["x", "y"]))
  {
    TaggedRoundTrip("abc", "Hello", ["x", "y"], []);
    assert Concat(HeaderLines("abc", "Hello", Join(["x", "y"], ','))) + [] == Concat(HeaderLines("abc", "Hello", Join(["x", "y"], ',')));
  }

  /** A directory holding a single readable note rebuilds to that note's
      record alone. */
  lemma SingleNoteDirectory(prior: Database, note: string, node: Node)
    requires Parse(note) == Ok(node)
    ensures Refresh(prior, [note]) == Refreshed(Written([node]), None)
  {
    assert Scan([note]) == Ok([node]) by {
      ScanInsert([], 0, note, node);
      assert [][..0] + [note] + [][0..] == [note];
      assert Scan([]) == Ok([]);
      assert Scan([]).value[..0] + [node] + Scan([]).value[0..] == [node];
    }
  }

  /** A note too short to hold lines 1-3 makes the rebuild fail, and the
      index is then left empty, whatever it held before. */
  lemma ShortNoteEmptiesIndex(prior: Database, listing: seq<string>, k: nat)
    requires k < |listing| && Count(Translate(listing[k]), '\n') < 3
    ensures Refresh(prior, listing).failure.Some?
    ensures Refresh(prior, listing).db == Blank
  {
    ShortFileFails(listing[k]);
  }

  /** The `new` command: `createNode` writes a fresh note, which the
      directory lists at some position `k` among the other notes, and
      `refreshDatabase` follows. The rebuild succeeds exactly when it would
      have without the new note, and then the new note's record, with the
      empty tag list `[""]`, is inserted at position `k` among the records
      the other notes give. */
  lemma NewNodeThenRefresh(prior: Database, others: seq<string>, k: nat, id: string, title: string)
    requires k <= |others|
    requires SingleLine(id) && SingleLine(title)
    ensures var before := Refresh(prior, others);
            var after := Refresh(prior, others[..k] + [Render(id, title)] + others[k..]);
            && (after.failure.None? <==> before.failure.None?)
            && (before.failure.None? ==>
                  after.db.nodes == before.db.nodes[..k]
                                    + [Node(Strip(Split(id, ':')[0]), Strip(Split(title, ':')[0]), [""])]
                                    + before.db.nodes[k..])
  {
    RenderThenParse(id, title);
    ScanInsert(others, k, Render(id, title), Node(Strip(Split(id, ':')[0]), Strip(Split(title, ':')[0]), [""]));
  }

  /** The `new` command with a title spanning two lines, the second without
      a colon: the note it writes is unreadable, so the rebuild that follows
      fails and leaves the index empty, as does every later one while the
      note stays in the directory. */
  lemma MultiLineTitleBreaksRefresh(prior: Database, others: seq<string>, k: nat, id: string, a: string, b: string)
    requires k <= |others|
    requires SingleLine(id) && SingleLine(a) && SingleLine(b) && ':' !in b
    ensures var r := Refresh(prior, others[..k] + [Render(id, a + "\n" + b)] + others[k..]);
            r.failure.Some? && r.db == Blank
  {
    var listing := others[..k] + [Render(id, a + "\n" + b)] + others[k..];
    MultiLineTitleFails(id, a, b);
    assert listing[k] == Render(id, a + "\n" + b);
  }
}

=== FILE: text.dfy ===
/** The handful of Python `str` operations the header codec relies on:
    `strip()` with no argument, `split(sep)` with a one-character separator,
    and the counting and joining needed to state what `split` returns. */
module Text {

  /** Python's `str.isspace()` for one character: the ASCII controls
      TAB..CR and FS..US, the space, NEL, NBSP and the Unicode space
      separators. */
  predicate IsSpace(c: char) {
    || c == ' '
    || ('\t' <= c <= '\r')
    || ('\U{1C}' <= c <= '\U{1F}')
    || c == '\U{85}'
    || c == '\U{A0}'
    || c == '\U{1680}'
    || ('\U{2000}' <= c <= '\U{200A}')
    || c == '\U{2028}'
    || c == '\U{2029}'
    || c == '\U{202F}'
    || c == '\U{205F}'
    || c == '\U{3000}'
  }

  predicate AllSpace(s: string) {
    forall k :: 0 <= k < |s| ==> IsSpace(s[k])
  }

  /** Neither starts nor ends with whitespace. */
  predicate Trimmed(s: string) {
    |s| == 0 || (!IsSpace(s[0]) && !IsSpace(s[|s| - 1]))
  }

  /** `s.lstrip()`: the suffix left after dropping leading whitespace. */
  function TrimStart(s: string): (r: string)
    ensures |r| <= |s| && r == s[|s| - |r|..]
    ensures AllSpace(s[..|s| - |r|])
    ensures |r| == 0 || !IsSpace(r[0])
  {
    if |s| > 0 && IsSpace(s[0]) then
      var r := TrimStart(s[1..]);
      assert s[..|s| - |r|] == [s[0]] + s[1..][..|s| - 1 - |r|];
      r
    else s
  }

  /** `s.rstrip()`: the prefix left after dropping trailing whitespace. */
  function TrimEnd(s: string): (r: string)
    ensures |r| <= |s| && r == s[..|r|]
    ensures AllSpace(s[|r|..])
    ensures |r| == 0 || !IsSpace(r[|r| - 1])
  {
    if |s| > 0 && IsSpace(s[|s| - 1]) then
      var r := TrimEnd(s[..|s| - 1]);
      assert s[|r|..] == s[..|s| - 1][|r|..] + [s[|s| - 1]];
      r
    else s
  }

  /** `s.strip()`: whitespace removed from both ends. */
  function Strip(s: string): (r: string)
    ensures Trimmed(r)
  {
    var t := TrimStart(s);
    var r := TrimEnd(t);
    assert |r| > 0 ==> r[0] == t[0];
    r
  }

  /** What `strip` keeps is a contiguous middle of the text, and what it
      removes on either side is whitespace only. */
  lemma StripIsMiddle(s: string)
    ensures var r := Strip(s);
            exists i :: 0 <= i && i + |r| <= |s| && r == s[i..i + |r|]
                        && AllSpace(s[..i]) && AllSpace(s[i + |r|..])
  {
    var t := TrimStart(s);
    var r := TrimEnd(t);
    var i := |s| - |t|;
    assert t == s[i..];
    assert r == s[i..i + |r|] by {
      assert r == t[..|r|];
    }
    assert AllSpace(s[i + |r|..]) by {
      assert s[i + |r|..] == t[|r|..];
    }
    assert AllSpace(s[..i]);
    assert Strip(s) == r;
  }

  /** Stripping changes nothing exactly when there is nothing to strip. */
  lemma StripFixpoint(s: string)
    ensures Strip(s) == s <==> Trimmed(s)
  {
    if Trimmed(s) {
      assert TrimStart(s) == s;
      assert TrimEnd(s) == s;
    }
  }

  lemma {:induction false} TrimStartAllSpace(w: string)
    requires AllSpace(w)
    ensures TrimStart(w) == []
    decreases |w|
  {
    if |w| > 0 {
      TrimStartAllSpace(w[1..]);
    }
  }

  lemma {:induction false} TrimStartAppend(x: string, w: string)
    requires TrimStart(x) != []
    ensures TrimStart(x + w) == TrimStart(x) + w
    decreases |x|
  {
    assert (x + w)[0] == x[0];
    if IsSpace(x[0]) {
      assert (x + w)[1..] == x[1..] + w;
      TrimStartAppend(x[1..], w);
    }
  }

  lemma {:induction false} TrimEndAppendSpace(t: string, w: string)
    requires AllSpace(w)
    ensures TrimEnd(t + w) == TrimEnd(t)
    decreases |w|
  {
    if |w| > 0 {
      var s := t + w;
      assert s[|s| - 1] == w[|w| - 1];
      assert s[..|s| - 1] == t + w[..|w| - 1];
      TrimEndAppendSpace(t, w[..|w| - 1]);
    } else {
      assert t + w == t;
    }
  }

  /** Trailing whitespace, such as a line's newline, never reaches the
      stripped result. */
  lemma StripTrailingSpace(x: string, w: string)
    requires AllSpace(w)
    ensures Strip(x + w) == Strip(x)
  {
    if TrimStart(x) != [] {
      TrimStartAppend(x, w);
      TrimEndAppendSpace(TrimStart(x), w);
    } else {
      assert x[..|x|] == x;
      TrimStartAllSpace(x + w);
    }
  }

  /** Number of occurrences of `c` in `s`. */
  function Count(s: string, c: char): (n: nat)
    ensures n <= |s|
    ensures n == 0 <==> c !in s
  {
    if |s| == 0 then 0
    else (if s[0] == c then 1 else 0) + Count(s[1..], c)
  }

  lemma {:induction false} CountAppend(a: string, b: string, c: char)
    ensures Count(a + b, c) == Count(a, c) + Count(b, c)
    decreases |a|
  {
    if |a| == 0 {
      assert a + b == b;
    } else {
      assert (a + b)[0] == a[0] && (a + b)[1..] == a[1..] + b;
      CountAppend(a[1..], b, c);
    }
  }

  /** A prefix holds no more occurrences than the whole. */
  lemma CountPrefix(a: string, s: string, c: char)
    requires a <= s
    ensures Count(a, c) <= Count(s, c)
  {
    assert s == a + s[|a|..];
    CountAppend(a, s[|a|..], c);
  }

  /** Python's `sep.join(parts)`. */
  function Join(parts: seq<string>, sep: char): string {
    if |parts| == 0 then []
    else if |parts| == 1 then parts[0]
    else parts[0] + [sep] + Join(parts[1..], sep)
  }

  /** A character that is neither the separator nor in any piece is not in
      the joined text. */
  lemma {:induction false} JoinAvoids(parts: seq<string>, sep: char, c: char)
    requires c != sep
    requires forall i :: 0 <= i < |parts| ==> c !in parts[i]
    ensures c !in Join(parts, sep)
    decreases |parts|
  {
    if |parts| > 1 {
      JoinAvoids(parts[1..], sep, c);
    }
  }

  /** Python's `s.split(sep)` for a one-character `sep`: the pieces between
      consecutive separators, never an empty list (`"".split(",") == [""]`). */
  function Split(s: string, sep: char): (r: seq<string>)
    ensures |r| == Count(s, sep) + 1
    ensures forall i :: 0 <= i < |r| ==> sep !in r[i]
    ensures Join(r, sep) == s
  {
    if |s| == 0 then [[]]
    else
      var rest := Split(s[1..], sep);
      if s[0] == sep then
        assert Join([[]] + rest, sep) == [] + [sep] + Join(rest, sep) by {
          assert ([[]] + rest)[1..] == rest;
        }
        [[]] + rest
      else
        var r := [[s[0]] + rest[0]] + rest[1..];
        assert Join(r, sep) == [s[0]] + Join(rest, sep) by {
          if |rest| > 1 {
            assert r[1..] == rest[1..];
          }
        }
        assert s == [s[0]] + s[1..];
        r
  }

  /** A separator-free text splits into itself alone. */
  lemma {:induction false} SplitNoSeparator(s: string, sep: char)
    requires sep !in s
    ensures Split(s, sep) == [s]
  {
    assert Count(s, sep) == 0;
  }

  /** Splitting at the first separator: what precedes it is the first piece. */
  lemma {:induction false} SplitFirst(a: string, sep: char, b: string)
    requires sep !in a
    ensures Split(a + [sep] + b, sep) == [a] + Split(b, sep)
    decreases |a|
  {
    var s := a + [sep] + b;
    if |a| == 0 {
      assert s[0] == sep && s[1..] == b;
    } else {
      assert s[0] == a[0] && s[1..] == a[1..] + [sep] + b;
      SplitFirst(a[1..], sep, b);
      assert [a[0]] + a[1..] == a;
    }
  }

  /** The first piece runs up to the first separator, or to the end. */
  lemma SplitHead(value: string, rest: string, sep: char)
    requires sep !in value
    requires rest == [] || rest[0] == sep
    ensures Split(value + rest, sep)[0] == value
  {
    if rest == [] {
      assert value + rest == value;
      SplitNoSeparator(value, sep);
    } else {
      assert value + rest == value + [sep] + rest[1..];
      SplitFirst(value, sep, rest[1..]);
    }
  }

  /** `split` inverts `join` whenever no piece contains the separator. */
  lemma {:induction false} SplitJoin(parts: seq<string>, sep: char)
    requires |parts| > 0
    requires forall i :: 0 <= i < |parts| ==> sep !in parts[i]
    ensures Split(Join(parts, sep), sep) == parts
    decreases |parts|
  {
    if |parts| == 1 {
      SplitNoSeparator(parts[0], sep);
    } else {
      SplitJoin(parts[1..], sep);
      SplitFirst(parts[0], sep, Join(parts[1..], sep));
      assert [parts[0]] + parts[1..] == parts;
    }
  }

  /** Text appended after the first separator does not change the first
      piece; appended to a separator-free text it joins that piece. */
  lemma {:induction false} SplitHeadAppend(v: string, w: string, sep: char)
    requires sep !in w
    ensures sep in v ==> Split(v + w, sep)[0] == Split(v, sep)[0]
    ensures sep !in v ==> Split(v + w, sep)[0] == v + w
    decreases |v|
  {
    if |v| == 0 {
      assert v + w == w;
      SplitNoSeparator(w, sep);
    } else {
      assert (v + w)[0] == v[0] && (v + w)[1..] == v[1..] + w;
      if v[0] == sep {
        assert Split(v + w, sep)[0] == [] == Split(v, sep)[0];
      } else {
        SplitHeadAppend(v[1..], w, sep);
        assert sep in v <==> sep in v[1..];
        assert Split(v + w, sep)[0] == [v[0]] + Split(v[1..] + w, sep)[0];
        assert Split(v, sep)[0] == [v[0]] + Split(v[1..], sep)[0];
        assert [v[0]] + (v[1..] + w) == v + w;
      }
    }
  }

  /** All lines of a file, read back to back. */
  function Concat(ls: seq<string>): string {
    if |ls| == 0 then [] else ls[0] + Concat(ls[1..])
  }

  lemma {:induction false} ConcatEmpty(ls: seq<string>)
    requires Concat(ls) == []
    ensures forall j :: 0 <= j < |ls| ==> ls[j] == []
    decreases |ls|
  {
    if |ls| > 0 {
      ConcatEmpty(ls[1..]);
      forall j | 1 <= j < |ls|
        ensures ls[j] == []
      {
        assert ls[j] == ls[1..][j - 1];
      }
    }
  }

  /** Reading two runs of lines back to back reads their concatenation. */
  lemma {:induction false} ConcatAppend(a: seq<string>, b: seq<string>)
    ensures Concat(a + b) == Concat(a) + Concat(b)
    decreases |a|
  {
    if |a| == 0 {
      assert a + b == b;
    } else {
      assert (a + b)[1..] == a[1..] + b;
      ConcatAppend(a[1..], b);
    }
  }

  /** Five lines read back to back. */
  lemma ConcatFive(a: string, b: string, c: string, d: string, e: string)
    ensures Concat([a, b, c, d, e]) == a + b + c + d + e
  {
    var ls := [a, b, c, d, e];
    assert Concat(ls[4..]) == e by {
      assert ls[4..][1..] == [];
      assert e + [] == e;
    }
    assert Concat(ls[3..]) == d + e by {
      assert ls[3..][1..] == ls[4..];
    }
    assert Concat(ls[2..]) == c + (d + e) by {
      assert ls[2..][1..] == ls[3..];
    }
    assert Concat(ls[1..]) == b + (c + (d + e)) by {
      assert ls[1..][1..] == ls[2..];
    }
    assert Concat(ls) == a + (b + (c + (d + e)));
  }
}

=== FILE: textio.dfy ===
/** How a note file reaches the header parser: Python's text-mode `open`
    with universal newlines, read one `readline()` at a time. */
module TextIO {
  import opened Text

  /** Universal-newline input translation: `"\r\n"` and a lone `"\r"` are
      both delivered to the reader as `"\n"`; every other character passes
      through unchanged. */
  function Translate(s: string): (r: string)
    ensures '\r' !in r
    ensures '\r' !in s ==> r == s
    ensures |r| <= |s|
    decreases |s|
  {
    if |s| == 0 then []
    else if s[0] == '\r' then
      if |s| > 1 && s[1] == '\n' then "\n" + Translate(s[2..])
      else "\n" + Translate(s[1..])
    else
      assert s == [s[0]] + s[1..];
      [s[0]] + Translate(s[1..])
  }

  /** Text without carriage returns passes through the translation
      untouched, whatever follows it. */
  lemma {:induction false} TranslateAppend(x: string, y: string)
    requires '\r' !in x
    ensures Translate(x + y) == x + Translate(y)
    decreases |x|
  {
    if |x| > 0 {
      assert (x + y)[0] == x[0] && (x + y)[1..] == x[1..] + y;
      TranslateAppend(x[1..], y);
      assert x == [x[0]] + x[1..];
    } else {
      assert x + y == y;
    }
  }

  /** Both Windows (`"\r\n"`) and old Mac (`"\r"`) line endings reach the
      reader as a single `"\n"`; a `"\r"` is only a line ending of its own
      when no `"\n"` follows it. */
  lemma TranslateLineEnds(x: string, y: string)
    requires '\r' !in x
    ensures Translate(x + "\r\n" + y) == x + "\n" + Translate(y)
    ensures (y == [] || y[0] != '\n') ==> Translate(x + "\r" + y) == x + "\n" + Translate(y)
  {
    var crlf := "\r\n" + y;
    assert x + "\r\n" + y == x + crlf;
    TranslateAppend(x, crlf);
    assert crlf[0] == '\r' && crlf[1] == '\n' && crlf[2..] == y;
    var cr := "\r" + y;
    assert x + "\r" + y == x + cr;
    TranslateAppend(x, cr);
    assert cr[0] == '\r' && cr[1..] == y;
  }

  predicate EndsInNewline(l: string) {
    |l| > 0 && l[|l| - 1] == '\n'
  }

  /** A newline, if any, is only at the very end. */
  predicate NoInnerNewline(l: string) {
    forall k :: 0 <= k < |l| - 1 ==> l[k] != '\n'
  }

  /** A complete line as `readline()` returns it before end of file. */
  predicate IsLine(l: string) {
    EndsInNewline(l) && NoInnerNewline(l)
  }

  /** Newline-free text followed by a newline is one complete line. */
  lemma TerminatedIsLine(t: string)
    requires '\n' !in t
    ensures IsLine(t + "\n")
  {
    var l := t + "\n";
    forall k | 0 <= k < |l| - 1
      ensures l[k] != '\n'
    {
      assert l[k] == t[k];
    }
  }

  /** One `readline()`: the text up to and including the first newline,
      or everything that is left when there is none (`""` at end of file),
      paired with the unread rest of the stream. */
  function ReadLine(s: string): (r: (string, string))
    ensures r.0 + r.1 == s
  {
    if |s| == 0 then ([], [])
    else if s[0] == '\n' then
      assert s == "\n" + s[1..];
      ("\n", s[1..])
    else
      var p := ReadLine(s[1..]);
      assert s == [s[0]] + s[1..];
      ([s[0]] + p.0, p.1)
  }

  /** The line returned stops at the first newline, which it keeps; without
      a newline in the stream it takes everything and leaves nothing. */
  lemma {:induction false} ReadLineShape(s: string)
    ensures NoInnerNewline(ReadLine(s).0)
    ensures EndsInNewline(ReadLine(s).0) <==> '\n' in s
    ensures !EndsInNewline(ReadLine(s).0) ==> ReadLine(s).1 == []
    decreases |s|
  {
    if |s| > 0 && s[0] != '\n' {
      ReadLineShape(s[1..]);
      var l := ReadLine(s).0;
      var l' := ReadLine(s[1..]).0;
      assert l == [s[0]] + l';
      assert '\n' in s <==> '\n' in s[1..];
      assert EndsInNewline(l) <==> EndsInNewline(l');
    }
  }

  /** A character missing from a run of reads put together is missing
      from every read. */
  lemma {:induction false} ConcatAvoids(ls: seq<string>, c: char)
    requires c !in Concat(ls)
    ensures forall j :: 0 <= j < |ls| ==> c !in ls[j]
    decreases |ls|
  {
    if |ls| > 0 {
      assert Concat(ls) == ls[0] + Concat(ls[1..]);
      ConcatAvoids(ls[1..], c);
      forall j | 1 <= j < |ls|
        ensures c !in ls[j]
      {
        assert ls[j] == ls[1..][j - 1];
      }
    }
  }

  /** `n` successive `readline()` calls on the same stream. */
  function ReadLines(s: string, n: nat): (r: seq<string>)
    ensures |r| == n
    decreases n
  {
    if n == 0 then []
    else
      var p := ReadLine(s);
      [p.0] + ReadLines(p.1, n - 1)
  }

  /** What `n` reads deliver: consecutive pieces of the stream from its
      start, each a full line or the unterminated tail of the file; once one
      comes back without a newline the file is exhausted and every later
      read returns `""`. */
  lemma {:induction false} ReadLinesShape(s: string, n: nat)
    ensures Concat(ReadLines(s, n)) <= s
    ensures forall i :: 0 <= i < n ==> NoInnerNewline(ReadLines(s, n)[i])
    ensures forall i, j :: 0 <= i < j < n && !EndsInNewline(ReadLines(s, n)[i]) ==> ReadLines(s, n)[j] == []
    decreases n
  {
    if n > 0 {
      var p := ReadLine(s);
      var rest := ReadLines(p.1, n - 1);
      var r := ReadLines(s, n);
      ReadLinesShape(p.1, n - 1);
      ReadLineShape(s);
      assert r[1..] == rest;
      assert Concat(r) == p.0 + Concat(rest);
      assert Concat(r) <= s by {
        assert p.0 + Concat(rest) == s[..|p.0| + |Concat(rest)|];
      }
      if !EndsInNewline(p.0) {
        ConcatEmpty(rest);
      }
      forall i, j | 0 <= i < j < n && !EndsInNewline(r[i])
        ensures r[j] == []
      {
        assert r[j] == rest[j - 1];
        if i > 0 {
          assert r[i] == rest[i - 1];
        }
      }
      forall i | 0 <= i < n
        ensures NoInnerNewline(r[i])
      {
        if i > 0 {
          assert r[i] == rest[i - 1];
        }
      }
    }
  }

  /** A read that comes back without a newline has consumed the whole
      stream: the lines read so far are the entire file. */
  lemma {:induction false} ReadLinesExhausted(s: string, n: nat)
    requires n > 0 && !EndsInNewline(ReadLines(s, n)[n - 1])
    ensures Concat(ReadLines(s, n)) == s
    decreases n
  {
    var p := ReadLine(s);
    var rest := ReadLines(p.1, n - 1);
    var r := ReadLines(s, n);
    assert r == [p.0] + rest;
    assert r[1..] == rest;
    if n == 1 {
      ReadLineShape(s);
      assert Concat(rest) == [];
    } else {
      assert rest[n - 2] == r[n - 1];
      ReadLinesExhausted(p.1, n - 1);
    }
  }

  /** `readline()` on a stream that starts with a complete line returns
      exactly that line. */
  lemma ReadLineOfLine(l: string, rest: string)
    requires IsLine(l)
    ensures ReadLine(l + rest) == (l, rest)
  {
    var r := ReadLine(l + rest);
    assert (l + rest)[|l| - 1] == '\n';
    ReadLineShape(l + rest);
    var m := if |r.0| < |l| then |r.0| else |l|;
    assert r.0[..m] == l[..m] by {
      assert r.0 + r.1 == l + rest;
      assert (r.0 + r.1)[..m] == r.0[..m];
      assert (l + rest)[..m] == l[..m];
    }
    assert r.0[m - 1] == l[m - 1];
    assert |r.0| == |l|;
    assert r.0 == (l + rest)[..|l|] == l;
  }

  /** Reading a stream written as complete lines gives those lines back,
      and the reader then continues on what follows them. */
  lemma {:induction false} ReadLinesOfLines(ls: seq<string>, tail: string, m: nat)
    requires forall i :: 0 <= i < |ls| ==> IsLine(ls[i])
    ensures ReadLines(Concat(ls) + tail, |ls| + m) == ls + ReadLines(tail, m)
    decreases |ls|
  {
    if |ls| == 0 {
      assert Concat(ls) + tail == tail;
    } else {
      var rest := Concat(ls[1..]) + tail;
      var n := |ls| + m;
      assert ReadLines(Concat(ls) + tail, n) == [ls[0]] + ReadLines(rest, n - 1) by {
        assert Concat(ls) + tail == ls[0] + rest;
        ReadLineOfLine(ls[0], rest);
      }
      assert ReadLines(rest, n - 1) == ls[1..] + ReadLines(tail, m) by {
        forall i | 0 <= i < |ls| - 1
          ensures IsLine(ls[1..][i])
        {
          assert ls[1..][i] == ls[i + 1];
        }
        ReadLinesOfLines(ls[1..], tail, m);
      }
      calc {
        ReadLines(Concat(ls) + tail, |ls| + m);
        [ls[0]] + ReadLines(rest, n - 1);
        [ls[0]] + (ls[1..] + ReadLines(tail, m));
        { ConsAppend(ls, ReadLines(tail, m)); }
        ls + ReadLines(tail, m);
      }
    }
  }

  lemma ConsAppend<T>(xs: seq<T>, ys: seq<T>)
    requires |xs| > 0
    ensures [xs[0]] + (xs[1..] + ys) == xs + ys
  {
    assert xs == [xs[0]] + xs[1..];
  }

  /** Each complete line carries one newline. */
  lemma {:induction false} CountCompleteLines(ls: seq<string>, m: nat)
    requires m <= |ls|
    requires forall k :: 0 <= k < m ==> EndsInNewline(ls[k])
    ensures Count(Concat(ls), '\n') >= m
    decreases m
  {
    if m > 0 {
      var l := ls[0];
      assert l == l[..|l| - 1] + "\n";
      CountAppend(l[..|l| - 1], "\n", '\n');
      CountAppend(l, Concat(ls[1..]), '\n');
      forall k | 0 <= k < m - 1
        ensures EndsInNewline(ls[1..][k])
      {
        assert ls[1..][k] == ls[k + 1];
      }
      CountCompleteLines(ls[1..], m - 1);
    }
  }

  /** Past end of file every `readline()` returns the empty string. */
  lemma ReadLinesAtEof(n: nat)
    ensures forall j :: 0 <= j < n ==> ReadLines([], n)[j] == []
  {
    ReadLinesShape([], n);
    ConcatEmpty(ReadLines([], n));
  }
}

=== FILE: wrappers.dfy ===
/** Failure-carrying values: the model's stand-in for Python exceptions. */
module Wrappers {

  /** A value that may be missing. */
  datatype Option<+T> = None | Some(value: T)

  /** Either a computed value or the error that aborted the computation. */
  datatype Result<+T, +E> = Ok(value: T) | Err(error: E)
}
